=== FILE: README.md ===
# languagevio-server: access gate and store transitions

A Dafny model of the request-handling logic of the Languagevio backend
(`index.js`). It is an Express server in front of five MongoDB collections:
`users`, `classes`, `instructors`, `studentClasses` and `newClasses`. The model
covers two parts.

- **The access gate.** `verifyJWT` rejects a missing or empty `Authorization`
  header. Otherwise it takes the token as the second space-separated word of
  the header and hands it to `jwt.verify`. `verifyAdmin` and `verifyInstructor`
  look the caller up by the token's email and compare the stored `role` with
  `'admin'` or `'instructor'`. They fail closed when no such user exists. The
  per-user listing routes also check that the caller owns the email in the
  query.
- **The store transitions.** Each route is a pure function from the store to
  a `Reply`. A `Reply` holds every `res.send` the handler attempts, plus the
  store it leaves behind. Some handlers call `res.send` without `return` and
  keep running. The client receives only the first send (`Http.Seen`,
  `Reply.Visible`). A later send throws `ERR_HTTP_HEADERS_SENT` inside the
  `async` handler and never reaches the client. Nothing in `index.js`
  catches that rejection (the `.catch` at index.js:299 covers only startup),
  so under Node's default since version 15 it ends the server process.

The data model follows the source, which uses no schema:

- A document is `Doc(id, fields)`, where `fields` is a map from names to
  JSON-like values.
- A collection is a sequence of documents in natural order.
- `findOne`, `updateOne` and `deleteOne` act on the first match.
- An absent field reads as `Null`. The driver serialises an `undefined`
  filter value as `null`, and `{k: null}` matches a missing field, so a
  `FieldIs` query is exactly `Get(fields, k) == v`.
- A whole request body used as a filter (`deleteOne(instructor)`) is a
  `Like` query. Every field of the body must match.
- `ObjectId` generation is a counter, `State.nextId`. `Store.Valid` states
  that ids are distinct and below that counter, and that user emails are
  unique. Every route keeps `Valid` (`Api.HandlePreservesValid`). That
  relies on each request being one atomic step; see "## Left out" on
  concurrent sign-ins.

`jwt.verify`, with its secret and its expiry check against the clock, is a
parameter `verify: string -> Option<Claim>` that is never interpreted.
`Api.Handle` puts it all together. It dispatches a request to its route
behind the middleware that route is registered with.

Three behaviours of the code are easy to misread:

- Denial is not one-way. `PATCH /newClasses/denied/:id` overwrites any
  status, an approved one included (`Api.DenyAfterApprove`).
- Promote-to-admin deletes the first instructor document that matches the
  whole request body, not one tied to the user id. Nothing is deleted when
  the body carries a non-null field the stored entry lacks or holds with
  another value; a null field in the body matches a missing one.
- Approval publishes the caller's body even when no submission has that id.

## Model

| member | source | states |
|---|---|---|
| Text.Split | index.js:19 | `split(' ')` always yields at least one piece, even for an empty string. |
| Text.SplitPieces | index.js:19 | `split(' ')` yields one more piece than there are spaces, and no piece contains a space. |
| Text.JoinSplit | index.js:19 | Joining the pieces of `split(' ')` with spaces gives back the header. |
| Text.SplitJoin | index.js:19 | Splitting inverts joining for pieces without separators, so the word positions of a header are well defined. |
| Text.TokenOf | index.js:19 | The token is `undefined` exactly when the header has no space. A token never contains a space. Which word it is is fixed by `Text.SecondWord`. |
| Text.SecondWord | index.js:19 | `split(' ')[1]`: a header of two or more space-free words joined by single spaces yields its second word, however many words follow. |
| Text.BearerToken | index.js:19 | For any scheme word without spaces, `<scheme> <token>` yields exactly `token`. The scheme is never checked. |
| Documents.Matches | index.js:124-127 | A filter value of null matches a stored null and a missing field alike. Any other value matches only a present, equal field. A whole body used as a filter needs every one of its fields to match that way. |
| Documents.FirstMatch | index.js:67 | Gives the position of the first document in natural order that matches the filter, or the end when none does. |
| Documents.FindOne | index.js:94 | `findOne` returns a stored matching document. It returns null exactly when no stored document matches. |
| Documents.Find | index.js:192 | `find(q).toArray()` returns only matching documents, and no more documents than are stored. |
| Documents.FindContents | index.js:192 | `find(q).toArray()` returns each matching document exactly as often as it is stored, and nothing else. |
| Documents.FindConcat | index.js:192 | The results of `find` keep natural order. The matches of two concatenated parts are the matches of the first followed by those of the second. |
| Documents.Insert | index.js:98 | `insertOne` appends exactly one document with the given fields under the given id. Nothing else changes. |
| Documents.SetFirst | index.js:234 | `updateOne` with `$set` sets the field on the first match only. Ids, other documents and other fields are unchanged. |
| Documents.DeleteFirst | index.js:205 | `deleteOne` removes at most one document. When there is a match, the removed one is the first match and every other document keeps its relative order. |
| Documents.UpdateReport | index.js:249-250 | `matchedCount` is 1 exactly when a document matches. `modifiedCount` is 1 exactly when the update changes the collection. |
| Documents.DeleteReport | index.js:205-206 | `deletedCount` is 1 exactly when a document matches, and it equals the drop in size. |
| Documents.DeleteById | index.js:202-206 | With distinct ids, deleting by id leaves no document with that id and keeps every other document. |
| Http.Seen | index.js:106-111 | The client's response is the first attempted send. There is none when nothing is sent. |
| Store.UserByEmail | index.js:65-67 | The user lookup returns a stored user with the caller's email. It returns null exactly when there is none. |
| Store.HasRoleExact | index.js:68 | With unique emails, `user?.role === role` holds exactly when some user with that email has that role. |
| Auth.VerifyJwt | index.js:13-28 | Refusal is always 401 `an unauthorized access`. A missing, empty or spaceless header is refused. A claim passes only if the verifier decoded it from the header's second word. Conversely, whenever the header has a second word that the verifier accepts, that claim passes, however many words follow. |
| Auth.BearerHeader | index.js:19-27 | For a `<scheme> <token>` header the verifier alone decides. Its claim is attached, or the result is 401. |
| Auth.VerifyRole | index.js:64-72 | The claim passes unchanged or the result is 403 `forbidden access`. A caller with no user document is refused. Passing implies a user with that email and exactly that role. |
| Auth.RoleGateExact | index.js:75-83 | With unique emails, the role guard passes exactly when the caller's user document has the required role. |
| Api.GateOf | index.js:86-283 | Only `GET /users` and `GET /newClasses` are admin-only. Only the two `/newClasses/instructor` routes are instructor-only. The two role lookups and `GET /studentClasses` need only a token, and every other route is open. |
| Auth.Admit | index.js:268 | Guards run in order and the first refusal answers. A JWT failure is 401 before any role check. Passing a role gate implies the role. |
| Routes.ListUsers | index.js:86-89 | `GET /users` is read-only and answers with the whole users collection. |
| Routes.AddUser | index.js:91-100 | Insert-if-absent by email. A known email leaves the store unchanged and answers `user already exists`. Otherwise exactly one document is appended. Only users and the id counter change, and `Valid` is kept. |
| Routes.CheckRoleAsWritten | index.js:103-112 | As written, a mismatch sends `{admin: false}` first. It then attempts a second send carrying the role of the user named in the path. A match sends the stored role check once. |
| Routes.CheckRole | index.js:138-147 | After the one send, the flag is true only for the caller's own email whose stored role is exactly the checked one. With unique emails, this is an iff over the stored users. |
| Routes.CheckRoleMissingReturn | index.js:103-107 | The response to this request and the store are the same with or without the missing `return`. A second send, which throws, happens exactly on a mismatch. |
| Routes.MakeAdmin | index.js:114-135 | The user with that id becomes `admin` and other users are untouched. With no instructor holding the body's email, the directory is unchanged. Otherwise at most one document matching the whole body is removed, and exactly one when a match exists and the body has an email. |
| Routes.MakeInstructor | index.js:149-164 | The user with that id becomes `instructor`. The body is always appended to the directory, exactly one document with no duplicate check. |
| Routes.SetFirstKeepsEmails | index.js:119-121 | A `$set` of `role` keeps every user's email, so unique emails survive promotion. |
| Routes.OwnedListAsWritten | index.js:181-194 | As written, a falsy query email sends `[]` first and then attempts a second send. Otherwise there is one send. |
| Routes.OwnedList | index.js:268-281 | A falsy email gives `[]`. Another user's email gives 403. The caller's own email gives exactly the documents whose `userEmail` is the caller's, each as many times as it is stored. |
| Routes.OwnedListMissingReturn | index.js:181-189 | The same first response with or without the missing `return`. A second send happens exactly when the query email is falsy. |
| Routes.ListSelected | index.js:181-194 | `GET /studentClasses` is read-only and answers as `OwnedList` over the selections. |
| Routes.ListOwnSubmissions | index.js:268-281 | `GET /newClasses/instructor` is read-only and answers as `OwnedList` over the submissions. |
| Routes.SelectClass | index.js:196-200 | Exactly one selection holding the body is appended. Nothing else changes except the id counter, and `Valid` is kept. |
| Routes.RemoveSelected | index.js:202-208 | At most one selection is removed, and none is added. In a valid store no selection with that id remains and every other one stays. `deletedCount` is the drop in size. |
| Routes.ListSubmissions | index.js:212-215 | `GET /newClasses` is read-only and answers with every submission. |
| Routes.Submit | index.js:283-287 | Exactly one submission holding the body is appended, whatever its `userEmail`. |
| Routes.Approve | index.js:224-238 | The submission with that id gets status `approved`. Exactly one class holding the caller's body is published, even without such a submission. |
| Routes.Deny | index.js:240-251 | The submission with that id gets status `denied`, whatever it was before. Nothing else changes. |
| Routes.Feedback | index.js:253-265 | Only the `feedback` field of that submission changes. It is set to the body's `feedback`, or null when the body has none. |
| Api.Handle | index.js:86-287 | An open route runs its handler directly. A refusing guard answers with its single error, and the store is unchanged. |
| Api.NoHeaderRefused | index.js:14-17 | With no header, every guarded route answers exactly one 401 and leaves the store unchanged. |
| Api.RejectedTokenRefused | index.js:21-24 | A `<scheme> <token>` header whose token the verifier rejects gets the same 401, with the store unchanged. |
| Api.WrongRoleForbidden | index.js:68-70 | A verified caller without the required role, or with no user document, gets 403 behind an admin or instructor gate. |
| Api.VerifiedCallerServed | index.js:19-27 | A caller whose `<scheme> <token>` header verifies reaches the handler with the decoded claim. Behind a role gate, the caller must also hold the role. |
| Api.OnlyAdminClaimsList | index.js:86-89 | `GET /users` and `GET /newClasses` answer 200 exactly when the token verifies and carries the email of a user document whose role is `admin`. Everyone else gets an error status. |
| Api.OpenRoutesIgnoreToken | index.js:114 | The promotion, cart and review routes answer the same with any header and any verifier. |
| Api.HandlePreservesValid | index.js:91-100 | Every request keeps ids distinct and fresh and user emails unique. |
| Api.HandleSendsOnce | index.js:181-189 | With the `return`s restored, every request attempts exactly one send. |
| Api.AddUserIdempotent | index.js:94-97 | Repeating a sign-in leaves the store as the first call left it and answers `user already exists`. |
| Api.MakeInstructorTwiceDuplicates | index.js:159-161 | Promoting twice lists the instructor twice, with two new directory documents holding the same body. |
| Api.DenyAfterApprove | index.js:240-250 | Approving and then denying leaves the submission `denied` and the published class in place. The transition is not one-way. |

## Left out

- Express wiring, CORS, `dotenv`, `app.listen` and the root route are transport plumbing.
- MongoDB client construction, `connect` and `ping` are I/O. The collections are sequences in `Store.State`.
- `POST /jwt` (index.js:56-61) is left out, and so is `jwt.sign` with its 5-hour expiry, which needs the wall clock. The route has no middleware and signs whatever body is posted, so any client can obtain a valid token carrying any email, an admin's included. Every gate property here is therefore about the email in the token's claim, not about who sent the request. Verification is the `verify` parameter, which may answer anything for any string, the empty token included.
- `new ObjectId(id)` parsing is left out. A malformed id throws before any write. The rejection is unhandled, so the request gets no answer and, under Node's default, the process ends. Ids are opaque numbers.
- The process exit after an unhandled rejection is not modelled. It follows a second `res.send` (the four findings below) or a malformed id. Each request is a step that always returns, so the model's claims about later requests assume the server is still running.
- A request body's `_id` is not treated specially. Inserted documents always get a counter id. A body's `_id` is an ordinary field and is never compared with the document's id.
- Claims are `Claim(email: string)`. A token whose payload has no string `email` is not modelled.
- A query parameter repeated into an array (`?email=a&email=b`) is not modelled. The query email is absent or one string.
- Values are flat: strings, integers, booleans and null. Non-integer numbers, such as fractional prices, are not modelled. Nested objects and arrays in bodies are not modelled, and neither is Mongo's array-element matching.
- `GET /classes` and `GET /instructors` are public reads of a whole collection and add nothing.
- Driver and network failures are left out. The source lets them become unhandled rejections. Every write in the model succeeds.
- Concurrent requests are left out. Each request is one atomic step. `Store.UniqueEmails` holds only because of this: `POST /users` (index.js:94-98) looks the email up and inserts across two `await`s, so two concurrent sign-ins with the same email can both insert. `Auth.RoleGateExact`, the iff in `Routes.CheckRole`, `Api.VerifiedCallerServed` and `Api.OnlyAdminClaimsList` rely on unique emails.
- Payments, enrollment and payment intents do not appear in `index.js`.

## Findings

| source | as written | input that shows it | evidently intended | confidence | as-written member | corrected member |
|---|---|---|---|---|---|---|
| index.js:105-107 | On an email mismatch, `res.send({admin: false})` has no `return`. The handler then looks the path email up and calls `res.send` again, which throws `ERR_HTTP_HEADERS_SENT`. The throw is an unhandled rejection in an `async` handler, which under Node's default ends the server process for every later client. | A valid token for `a@x.com` calling `GET /users/admin/b@x.com` | `return res.send({admin: false})` | high (not executed) | Routes.CheckRoleAsWritten | Routes.CheckRole |
| index.js:140-142 | The same missing `return` in the instructor check. The throw is an unhandled rejection in an `async` handler, which under Node's default ends the server process for every later client. | A valid token for `a@x.com` calling `GET /users/instructor/b@x.com` | `return res.send({instructor: false})` | high (not executed) | Routes.CheckRoleAsWritten | Routes.CheckRole |
| index.js:183-185 | A falsy query email sends `[]` without `return`. The ownership check then sends 403, which throws. The throw is an unhandled rejection in an `async` handler, which under Node's default ends the server process for every later client. | A valid token calling `GET /studentClasses` with no `email` | `return res.send([])` | high (not executed) | Routes.OwnedListAsWritten | Routes.OwnedList |
| index.js:270-272 | The same missing `return` in the instructor's own-submissions route. The throw is an unhandled rejection in an `async` handler, which under Node's default ends the server process for every later client. | A valid instructor token calling `GET /newClasses/instructor` with no `email` | `return res.send([])` | high (not executed) | Routes.OwnedListAsWritten | Routes.OwnedList |

In every row the first send is what this request's client sees, so the
response to this request and the store are the same in both versions. The
versions differ after it: the as-written one throws, and the process exit
that follows is not modelled (see "## Left out"). `Routes.CheckRoleMissingReturn`
and `Routes.OwnedListMissingReturn` prove this. They also prove that the
second send happens exactly on the inputs named. `Api.Handle` uses the
corrected members, and `Api.HandleSendsOnce` proves one send per request.

=== FILE: api.dfy ===
/** The server as one function: a request is dispatched to its route behind
    that route's middleware chain, and the route's reply is the result. */
module Api {
  import opened Results
  import opened Documents
  import opened Http
  import opened Store
  import opened Auth
  import opened Routes

  /** The modelled routes with their path, query and body inputs. */
  datatype Call =
    | GetUsers
    | PostUser(user: Fields)
    | GetAdmin(pathEmail: string)
    | PatchAdmin(id: Id, instructor: Fields)
    | GetInstructor(pathEmail: string)
    | PatchInstructor(id: Id, instructor: Fields)
    | GetSelected(queryEmail: Option<string>)
    | PostSelected(selected: Fields)
    | DeleteSelected(id: Id)
    | GetSubmissions
    | PatchApproved(id: Id, approvedClass: Fields)
    | PatchDenied(id: Id)
    | PatchFeedback(id: Id, feedback: Fields)
    | GetOwnSubmissions(queryEmail: Option<string>)
    | PostSubmission(newClass: Fields)

  /** A request: its `Authorization` header, if any, and the route called. */
  datatype Request = Request(authorization: Option<string>, call: Call)

  /** The middleware each route is registered with: only the two
      whole-collection reads are admin-only, only the submission routes are
      instructor-only, the role and selection lookups need just a token, and
      every other route is open. */
  function GateOf(call: Call): (g: Gate)
    ensures g == JwtAndRole("admin") <==> call.GetUsers? || call.GetSubmissions?
    ensures g == JwtAndRole("instructor") <==> call.GetOwnSubmissions? || call.PostSubmission?
    ensures g == Jwt <==> call.GetAdmin? || call.GetInstructor? || call.GetSelected?
    ensures g.JwtAndRole? ==> g.role == "admin" || g.role == "instructor"
  {
    match call
    case GetUsers => JwtAndRole("admin")
    case GetSubmissions => JwtAndRole("admin")
    case GetOwnSubmissions(_) => JwtAndRole("instructor")
    case PostSubmission(_) => JwtAndRole("instructor")
    case GetAdmin(_) => Jwt
    case GetInstructor(_) => Jwt
    case GetSelected(_) => Jwt
    case _ => Open
  }

  /** The route handler proper, reached only once the gate has passed; a
      guarded route receives the decoded claim. */
  function Serve(st: State, who: Option<Claim>, call: Call): Reply
    requires GateOf(call) != Open ==> who.Some?
  {
    match call
    case GetUsers => Routes.ListUsers(st)
    case PostUser(user) => Routes.AddUser(st, user)
    case GetAdmin(email) => CheckRole(st, who.value, email, "admin")
    case PatchAdmin(id, body) => Routes.MakeAdmin(st, id, body)
    case GetInstructor(email) => CheckRole(st, who.value, email, "instructor")
    case PatchInstructor(id, body) => Routes.MakeInstructor(st, id, body)
    case GetSelected(email) => Routes.ListSelected(st, who.value, email)
    case PostSelected(body) => Routes.SelectClass(st, body)
    case DeleteSelected(id) => Routes.RemoveSelected(st, id)
    case GetSubmissions => Routes.ListSubmissions(st)
    case PatchApproved(id, body) => Routes.Approve(st, id, body)
    case PatchDenied(id) => Routes.Deny(st, id)
    case PatchFeedback(id, body) => Routes.Feedback(st, id, body)
    case GetOwnSubmissions(email) => Routes.ListOwnSubmissions(st, who.value, email)
    case PostSubmission(body) => Routes.Submit(st, body)
  }

  /** One request, end to end. A refusing guard answers with its single
      error response and the store is left exactly as it was. */
  function Handle(st: State, req: Request, verify: Verifier): (r: Reply)
    ensures GateOf(req.call) == Open ==> r == Serve(st, None, req.call)
    ensures GateOf(req.call) != Open && Admit(st, req.authorization, verify, GateOf(req.call)).Failure? ==>
      r == Reply([Admit(st, req.authorization, verify, GateOf(req.call)).error], st)
  {
    var gate := GateOf(req.call);
    if gate == Open then Serve(st, None, req.call)
    else
      match Admit(st, req.authorization, verify, gate)
      case Failure(refusal) => Reply([refusal], st)
      case Success(claim) => Serve(st, Some(claim), req.call)
  }

  /** Without an `Authorization` header a guarded route answers 401
      `{error: true, message: 'an unauthorized access'}` and its handler
      never runs: one send, store unchanged, whatever the verifier. */
  lemma NoHeaderRefused(st: State, call: Call, verify: Verifier)
    requires GateOf(call) != Open
    ensures Handle(st, Request(None, call), verify) == Reply([Unauthorized], st)
  {
  }

  /** A header the verifier rejects is refused the same way. */
  lemma RejectedTokenRefused(st: State, scheme: string, token: string, call: Call, verify: Verifier)
    requires GateOf(call) != Open
    requires ' ' !in scheme && ' ' !in token
    requires verify(token).None?
    ensures Handle(st, Request(Some(scheme + " " + token), call), verify) == Reply([Unauthorized], st)
  {
    BearerHeader(scheme, token, verify);
  }

  /** Behind an admin or instructor gate, a verified caller whose user
      document is missing, or carries any other role, gets 403 and the
      handler never runs. */
  lemma WrongRoleForbidden(st: State, scheme: string, token: string, call: Call, verify: Verifier)
    requires GateOf(call).JwtAndRole?
    requires ' ' !in scheme && ' ' !in token
    requires verify(token).Some?
    requires !exists d :: d in st.users && Get(d.fields, "email") == Str(verify(token).value.email) &&
                          Get(d.fields, "role") == Str(GateOf(call).role)
    ensures Handle(st, Request(Some(scheme + " " + token), call), verify) == Reply([Forbidden], st)
  {
    BearerHeader(scheme, token, verify);
  }

  /** A caller whose token verifies, and who holds the role when the route
      demands one, reaches the handler with the claim the verifier decoded. */
  lemma VerifiedCallerServed(st: State, scheme: string, token: string, call: Call, verify: Verifier)
    requires GateOf(call) != Open
    requires ' ' !in scheme && ' ' !in token
    requires verify(token).Some?
    requires UniqueEmails(st.users)
    requires GateOf(call).JwtAndRole? ==>
      exists d :: d in st.users && Get(d.fields, "email") == Str(verify(token).value.email) &&
                  Get(d.fields, "role") == Str(GateOf(call).role)
    ensures Handle(st, Request(Some(scheme + " " + token), call), verify) == Serve(st, verify(token), call)
  {
    BearerHeader(scheme, token, verify);
    if GateOf(call).JwtAndRole? {
      RoleGateExact(st.users, verify(token).value, GateOf(call).role);
    }
  }

  /** The user and submission listings reach exactly the callers whose
      token verifies and carries the email of a user document whose role is
      `admin`; everyone else gets an error status. Who sent the request is
      not part of this: the claim is whatever the token says. */
  lemma OnlyAdminClaimsList(st: State, req: Request, verify: Verifier)
    requires req.call == GetUsers || req.call == GetSubmissions
    requires UniqueEmails(st.users)
    ensures var seen := Handle(st, req, verify).Visible();
      seen.Some? && (seen.value.status == 200 <==>
        exists claim :: VerifyJwt(req.authorization, verify) == Success(claim) &&
          exists d :: d in st.users && Get(d.fields, "email") == Str(claim.email) && Get(d.fields, "role") == Str("admin"))
  {
    var jwt := VerifyJwt(req.authorization, verify);
    if jwt.Success? {
      RoleGateExact(st.users, jwt.value, "admin");
    }
  }

  /** The promotion, cart-delete and review routes have no middleware: they
      answer the same with or without a valid token. */
  lemma OpenRoutesIgnoreToken(st: State, call: Call, a: Option<string>, b: Option<string>, v: Verifier, w: Verifier)
    requires GateOf(call) == Open
    ensures Handle(st, Request(a, call), v) == Handle(st, Request(b, call), w)
  {
  }

  /** Every request keeps the store valid: ids stay distinct and below the
      next id, and user emails stay unique. */
  lemma HandlePreservesValid(st: State, req: Request, verify: Verifier)
    requires Valid(st)
    ensures Valid(Handle(st, req, verify).next)
  {
  }

  /** Every request attempts exactly one send (the missing `return`s are
      corrected), so the visible response is that send. */
  lemma HandleSendsOnce(st: State, req: Request, verify: Verifier)
    ensures |Handle(st, req, verify).sends| == 1
  {
  }

  /** `POST /users` is idempotent: repeating the same sign-in leaves the
      store as the first one left it and answers "user already exists". */
  lemma AddUserIdempotent(st: State, user: Fields, v: Verifier)
    ensures var once := Handle(st, Request(None, PostUser(user)), v);
            var twice := Handle(once.next, Request(None, PostUser(user)), v);
            twice == Reply([Ok(Notice("user already exists"))], once.next)
  {
    var once := Routes.AddUser(st, user);
    if forall d :: d in st.users ==> Get(d.fields, "email") != Get(user, "email") {
      assert Doc(st.nextId, user) in once.next.users;
    }
  }

  /** Promoting to instructor twice lists the instructor twice: the
      directory grows by two documents with the same fields. */
  lemma MakeInstructorTwiceDuplicates(st: State, id: Id, body: Fields, v: Verifier)
    ensures var once := Handle(st, Request(None, PatchInstructor(id, body)), v);
            var twice := Handle(once.next, Request(None, PatchInstructor(id, body)), v);
            |twice.next.instructors| == |st.instructors| + 2 &&
            twice.next.instructors[|st.instructors|].fields == body &&
            twice.next.instructors[|st.instructors| + 1].fields == body
  {
  }

  /** Denial does not respect an earlier approval: approving and then
      denying the same submission leaves it denied, with the published
      class still in place. */
  lemma DenyAfterApprove(st: State, id: Id, body: Fields, v: Verifier)
    requires Valid(st)
    requires exists j :: 0 <= j < |st.newClasses| && st.newClasses[j].id == id
    ensures var approved := Handle(st, Request(None, PatchApproved(id, body)), v);
            var denied := Handle(approved.next, Request(None, PatchDenied(id)), v);
            && |denied.next.classes| == |st.classes| + 1
            && exists j :: 0 <= j < |denied.next.newClasses| && denied.next.newClasses[j].id == id &&
                 Get(denied.next.newClasses[j].fields, "status") == Str("denied")
  {
    var approved := Routes.Approve(st, id, body);
    assert Handle(st, Request(None, PatchApproved(id, body)), v) == approved;
    var denied := Routes.Deny(approved.next, id);
    assert Handle(approved.next, Request(None, PatchDenied(id)), v) == denied;
    var j :| 0 <= j < |st.newClasses| && st.newClasses[j].id == id;
    assert approved.next.newClasses[j].id == id;
    assert DistinctIds(approved.next.newClasses);
    assert denied.next.newClasses[j].fields == approved.next.newClasses[j].fields["status" := Str("denied")];
  }
}

=== FILE: auth.dfy ===
/** The access gate: the `verifyJWT`, `verifyAdmin` and `verifyInstructor`
    middleware, each a guard that either passes the decoded claim on to the
    next stage or answers the request itself. */
module Auth {
  import opened Results
  import opened Text
  import opened Documents
  import opened Http
  import opened Store

  /** The decoded token payload the handlers read: the caller's email. */
  datatype Claim = Claim(email: string)

  /** `jwt.verify` with the server's secret, including its expiry check
      against the clock: the decoded claim, or `None` for any error. It is
      a parameter of the model, never interpreted. */
  type Verifier = string -> Option<Claim>

  /** `verifyJWT`. A missing or empty header is refused, the token is the
      second space-separated word of the header (`undefined` when there is
      none), and only a token the verifier accepts lets the claim through. */
  function VerifyJwt(authorization: Option<string>, verify: Verifier): (r: Result<Claim, Response>)
    ensures r.Failure? ==> r.error == Unauthorized
    ensures authorization.None? || authorization == Some("") ==> r.Failure?
    ensures authorization.Some? && ' ' !in authorization.value ==> r.Failure?
    ensures r.Success? ==>
      exists token :: TokenOf(authorization.value) == Some(token) && verify(token) == Some(r.value)
    ensures authorization.Some? && TokenOf(authorization.value).Some? &&
            verify(TokenOf(authorization.value).value).Some? ==>
      r == Success(verify(TokenOf(authorization.value).value).value)
  {
    if authorization.None? || authorization.value == "" then Failure(Unauthorized)
    else
      match TokenOf(authorization.value)
      case None => Failure(Unauthorized)
      case Some(token) =>
        match verify(token)
        case None => Failure(Unauthorized)
        case Some(claim) => Success(claim)
  }

  /** A well-formed `<scheme> <token>` header is decided by the verifier
      alone: the claim it decodes is passed on, anything else is a 401. */
  lemma BearerHeader(scheme: string, token: string, verify: Verifier)
    requires ' ' !in scheme && ' ' !in token
    ensures verify(token).Some? ==> VerifyJwt(Some(scheme + " " + token), verify) == Success(verify(token).value)
    ensures verify(token).None? ==> VerifyJwt(Some(scheme + " " + token), verify) == Failure(Unauthorized)
  {
    BearerToken(scheme, token);
  }

  /** `verifyAdmin` / `verifyInstructor`: look the caller up by the claim's
      email and let the request through only when that user's role is
      exactly `role`. A caller with no user document is refused. */
  function VerifyRole(users: Collection, claim: Claim, role: string): (r: Result<Claim, Response>)
    ensures r.Success? ==> r.value == claim
    ensures r.Failure? ==> r.error == Forbidden
    ensures (forall d :: d in users ==> Get(d.fields, "email") != Str(claim.email)) ==> r.Failure?
    ensures r.Success? ==>
      exists d :: d in users && Get(d.fields, "email") == Str(claim.email) && Get(d.fields, "role") == Str(role)
  {
    if HasRole(users, claim.email, role) then Success(claim) else Failure(Forbidden)
  }

  /** With unique emails the role guard is exact: it passes if and only if
      the caller's user document carries the required role. */
  lemma RoleGateExact(users: Collection, claim: Claim, role: string)
    requires UniqueEmails(users)
    ensures VerifyRole(users, claim, role).Success? <==>
      exists d :: d in users && Get(d.fields, "email") == Str(claim.email) && Get(d.fields, "role") == Str(role)
  {
    HasRoleExact(users, claim.email, role);
  }

  /** Which middleware stands in front of a route. */
  datatype Gate = Open | Jwt | JwtAndRole(role: string)

  /** The middleware chain in order: `verifyJWT`, then the role check when
      the route has one. The first guard that refuses answers the request. */
  function Admit(st: State, authorization: Option<string>, verify: Verifier, gate: Gate): (r: Result<Claim, Response>)
    requires gate != Open
    ensures r.Failure? ==> r.error == Unauthorized || (gate.JwtAndRole? && r.error == Forbidden)
    ensures VerifyJwt(authorization, verify).Failure? ==> r == Failure(Unauthorized)
    ensures r.Success? ==> r == VerifyJwt(authorization, verify)
    ensures r.Success? && gate.JwtAndRole? ==> HasRole(st.users, r.value.email, gate.role)
  {
    var claim :- VerifyJwt(authorization, verify);
    if gate.JwtAndRole? then VerifyRole(st.users, claim, gate.role) else Success(claim)
  }
}

=== FILE: documents.dfy ===
/** An abstract document collection standing in for one MongoDB collection:
    an ordered sequence of schema-less documents, with the handful of driver
    operations the routes use (`findOne`, `find`, `insertOne`, `updateOne`
    with a single `$set`, `deleteOne`). */
module Documents {
  import opened Results

  /** A field value. Request bodies and stored documents are flat JSON
      objects; only strings are ever compared, the rest is carried along. */
  datatype Value = Str(text: string) | Num(number: int) | Bool(flag: bool) | Null

  type Fields = map<string, Value>

  /** Stands for an `ObjectId`: opaque, compared only for equality. */
  type Id = nat

  datatype Doc = Doc(id: Id, fields: Fields)

  type Collection = seq<Doc>

  /** Reading `doc.key`. An absent field is `undefined`, which the driver
      sends as `null`, and a `{key: null}` filter matches a document whose
      field is null or missing, so both read as `Null` here. */
  function Get(fields: Fields, key: string): Value
  {
    if key in fields then fields[key] else Null
  }

  /** A filter document: `{_id: id}`, `{key: value}`, or a whole request body
      used as a filter (every one of its fields must match). */
  datatype Query = IdIs(id: Id) | FieldIs(key: string, value: Value) | Like(example: Fields)

  /** Mongo's equality filter: a `null` in the filter matches a stored
      `null` and a missing field alike, any other value only a field that is
      present and equal. */
  function Matches(d: Doc, q: Query): (b: bool)
    ensures q.FieldIs? ==>
      (b <==> if q.value == Null then q.key !in d.fields || d.fields[q.key] == Null
              else q.key in d.fields && d.fields[q.key] == q.value)
    ensures q.Like? ==>
      (b <==> forall key :: key in q.example ==>
                if q.example[key] == Null then key !in d.fields || d.fields[key] == Null
                else key in d.fields && d.fields[key] == q.example[key])
  {
    match q
    case IdIs(id) => d.id == id
    case FieldIs(key, value) => Get(d.fields, key) == value
    case Like(example) => forall key :: key in example ==> Get(d.fields, key) == example[key]
  }

  /** Position of the first document in natural order that matches `q`, or
      `|c|` when none does: the document `findOne`, `updateOne` and
      `deleteOne` act on. */
  function FirstMatch(c: Collection, q: Query): (i: nat)
    ensures i <= |c|
    ensures i < |c| ==> Matches(c[i], q)
    ensures forall j :: 0 <= j < i ==> !Matches(c[j], q)
  {
    if |c| == 0 then 0
    else if Matches(c[0], q) then 0
    else
      var i := 1 + FirstMatch(c[1..], q);
      assert forall j :: 1 <= j < i ==> c[j] == c[1..][j - 1];
      i
  }

  /** `findOne(q)`: the first matching document, or `null`. */
  function FindOne(c: Collection, q: Query): (r: Option<Doc>)
    ensures r.Some? ==> r.value in c && Matches(r.value, q)
    ensures r.None? <==> forall d :: d in c ==> !Matches(d, q)
  {
    var i := FirstMatch(c, q);
    if i < |c| then Some(c[i]) else None
  }

  /** `find(q).toArray()`: every matching document, in natural order, each as
      often as it is stored. */
  function Find(c: Collection, q: Query): (r: Collection)
    ensures |r| <= |c|
    ensures forall j :: 0 <= j < |r| ==> Matches(r[j], q)
  {
    if |c| == 0 then []
    else
      var rest := Find(c[1..], q);
      if Matches(c[0], q) then [c[0]] + rest else rest
  }

  /** `Find` returns each matching document exactly as often as it is
      stored, and nothing else. */
  lemma {:induction false} FindContents(c: Collection, q: Query)
    ensures forall d :: multiset(Find(c, q))[d] == if Matches(d, q) then multiset(c)[d] else 0
    ensures forall d :: d in Find(c, q) <==> d in c && Matches(d, q)
  {
    if |c| > 0 {
      FindContents(c[1..], q);
      assert c == [c[0]] + c[1..];
    }
  }

  /** One step of `Find`: the head is kept exactly when it matches. */
  lemma FindCons(x: Doc, c: Collection, q: Query)
    ensures Find([x] + c, q) == if Matches(x, q) then [x] + Find(c, q) else Find(c, q)
  {
    assert ([x] + c)[0] == x && ([x] + c)[1..] == c;
  }

  /** `Find` keeps natural order: the matches of a concatenation are the
      matches of the first part followed by those of the second. */
  lemma {:induction false} FindConcat(c1: Collection, c2: Collection, q: Query)
    ensures Find(c1 + c2, q) == Find(c1, q) + Find(c2, q)
  {
    if |c1| == 0 {
      assert c1 + c2 == c2;
      assert [] + Find(c2, q) == Find(c2, q);
    } else {
      var x, rest := c1[0], c1[1..];
      assert c1 == [x] + rest && c1 + c2 == [x] + (rest + c2);
      FindConcat(rest, c2, q);
      FindCons(x, rest + c2, q);
      FindCons(x, rest, q);
      if Matches(x, q) {
        assert [x] + (Find(rest, q) + Find(c2, q)) == ([x] + Find(rest, q)) + Find(c2, q);
      }
    }
  }

  /** `after` is `before` with exactly one document holding `fields` added
      at the end, and nothing else changed. */
  predicate Appended(before: Collection, after: Collection, fields: Fields)
  {
    |after| == |before| + 1 && after[..|before|] == before && after[|before|].fields == fields
  }

  /** `insertOne(fields)`: appends a document under a newly generated id. */
  function Insert(c: Collection, id: Id, fields: Fields): (r: Collection)
    ensures Appended(c, r, fields) && r[|c|].id == id
  {
    c + [Doc(id, fields)]
  }

  /** `updateOne(q, {$set: {key: v}})`: the first matching document gets
      field `key` set to `v`; every other document, and every other field of
      that one, stays as it was. No match changes nothing. */
  function SetFirst(c: Collection, q: Query, key: string, v: Value): (r: Collection)
    ensures |r| == |c|
    ensures forall j :: 0 <= j < |c| ==> r[j].id == c[j].id
    ensures forall j :: 0 <= j < |c| && j != FirstMatch(c, q) ==> r[j] == c[j]
    ensures FirstMatch(c, q) < |c| ==>
      var i := FirstMatch(c, q);
      key in r[i].fields && r[i].fields[key] == v &&
      forall k :: k != key ==> Get(r[i].fields, k) == Get(c[i].fields, k)
  {
    var i := FirstMatch(c, q);
    if i < |c| then c[i := Doc(c[i].id, c[i].fields[key := v])] else c
  }

  /** `deleteOne(q)`: removes the first matching document and keeps the rest
      in order. No match changes nothing. */
  function DeleteFirst(c: Collection, q: Query): (r: Collection)
    ensures FirstMatch(c, q) == |c| ==> r == c
    ensures FirstMatch(c, q) < |c| ==>
      |r| == |c| - 1 && multiset(r) + multiset{c[FirstMatch(c, q)]} == multiset(c)
    ensures FirstMatch(c, q) < |c| ==>
      && (forall j :: 0 <= j < FirstMatch(c, q) ==> r[j] == c[j])
      && (forall j :: FirstMatch(c, q) <= j < |r| ==> r[j] == c[j + 1])
    ensures forall d :: d in r ==> d in c
  {
    var i := FirstMatch(c, q);
    if i < |c| then
      assert c == c[..i] + [c[i]] + c[i + 1..];
      RemoveAt(c, i, c[..i] + c[i + 1..]);
      c[..i] + c[i + 1..]
    else c
  }

  /** What the driver reports for one write. */
  datatype WriteResult =
    | Inserted(insertedId: Id)
    | Updated(matchedCount: nat, modifiedCount: nat)
    | Deleted(deletedCount: nat)

  /** The report of `SetFirst`: one document matched when any does, and it
      counts as modified unless the field already held exactly `v`. */
  function UpdateReport(c: Collection, q: Query, key: string, v: Value): (w: WriteResult)
    ensures w.Updated? && w.modifiedCount <= w.matchedCount <= 1
    ensures w.matchedCount == 1 <==> exists j :: 0 <= j < |c| && Matches(c[j], q)
    ensures w.modifiedCount == 1 <==> SetFirst(c, q, key, v) != c
  {
    var i := FirstMatch(c, q);
    if i == |c| then Updated(0, 0)
    else if key in c[i].fields && c[i].fields[key] == v then
      assert c[i].fields[key := v] == c[i].fields;
      Updated(1, 0)
    else
      assert SetFirst(c, q, key, v)[i] != c[i];
      Updated(1, 1)
  }

  /** The report of `DeleteFirst`. */
  function DeleteReport(c: Collection, q: Query): (w: WriteResult)
    ensures w.Deleted? && w.deletedCount <= 1
    ensures w.deletedCount == 1 <==> exists j :: 0 <= j < |c| && Matches(c[j], q)
    ensures w.deletedCount == |c| - |DeleteFirst(c, q)|
  {
    if FirstMatch(c, q) < |c| then Deleted(1) else Deleted(0)
  }

  /** Every id is below `bound`, the next id the store will hand out. */
  predicate IdsBelow(c: Collection, bound: Id)
  {
    forall j :: 0 <= j < |c| ==> c[j].id < bound
  }

  predicate DistinctIds(c: Collection)
  {
    forall i, j :: 0 <= i < j < |c| ==> c[i].id != c[j].id
  }

  /** The shape every collection keeps: ids are distinct and were all
      generated before `bound`. */
  predicate WellFormed(c: Collection, bound: Id)
  {
    IdsBelow(c, bound) && DistinctIds(c)
  }

  lemma InsertKeepsWellFormed(c: Collection, bound: Id, fields: Fields)
    ensures WellFormed(c, bound) ==> WellFormed(Insert(c, bound, fields), bound + 1)
  {
  }

  lemma SetFirstKeepsWellFormed(c: Collection, bound: Id, q: Query, key: string, v: Value)
    ensures WellFormed(c, bound) ==> WellFormed(SetFirst(c, q, key, v), bound)
  {
  }

  /** Removing position `i` shifts every later document down by one. */
  lemma RemoveAt(c: Collection, i: nat, r: Collection)
    requires i < |c| && r == c[..i] + c[i + 1..]
    ensures |r| == |c| - 1
    ensures forall j :: 0 <= j < i ==> r[j] == c[j]
    ensures forall j :: i <= j < |r| ==> r[j] == c[j + 1]
  {
  }

  lemma DeleteFirstKeepsWellFormed(c: Collection, bound: Id, q: Query)
    ensures WellFormed(c, bound) ==> WellFormed(DeleteFirst(c, q), bound)
  {
    var i := FirstMatch(c, q);
    if i < |c| && WellFormed(c, bound) {
      var r := DeleteFirst(c, q);
      RemoveAt(c, i, r);
      forall j, k | 0 <= j < k < |r|
        ensures r[j].id != r[k].id
      {
        var j', k' := (if j < i then j else j + 1), (if k < i then k else k + 1);
        assert r[j] == c[j'] && r[k] == c[k'] && j' < k';
      }
      assert forall j :: 0 <= j < |r| ==> r[j] in c;
    }
  }

  /** With distinct ids, deleting by id removes exactly the document with
      that id, if there is one, and keeps every other document. */
  lemma DeleteById(c: Collection, id: Id)
    ensures DistinctIds(c) ==> forall d :: d in DeleteFirst(c, IdIs(id)) ==> d.id != id
    ensures forall d :: d in c && d.id != id ==> d in DeleteFirst(c, IdIs(id))
  {
    var i := FirstMatch(c, IdIs(id));
    var r := DeleteFirst(c, IdIs(id));
    if i < |c| {
      assert forall j :: 0 <= j < |r| ==> r[j] == if j < i then c[j] else c[j + 1];
      forall d | d in c && d.id != id
        ensures d in r
      {
        var j :| 0 <= j < |c| && c[j] == d;
        if j < i { assert r[j] == d; } else { assert r[j - 1] == d; }
      }
    }
  }
}

=== FILE: http.dfy ===
/** Responses as the client sees them, and the "first response wins" rule
    for handlers that call `res.send` more than once. */
module Http {
  import opened Results
  import opened Documents

  /** A JSON response body. `RoleFlag(role, b)` is `{admin: b}` or
      `{instructor: b}`; `Writes(a, b)` is an object holding two driver
      reports, in the order the route lists them. */
  datatype Body =
    | Error(message: string)
    | Notice(message: string)
    | Docs(docs: Collection)
    | RoleFlag(role: string, holds: bool)
    | Write(result: WriteResult)
    | Writes(first: WriteResult, second: WriteResult)

  datatype Response = Response(status: nat, body: Body)

  /** `res.status(401).send({error: true, message: 'an unauthorized access'})` */
  const Unauthorized := Response(401, Error("an unauthorized access"))

  /** `res.status(403).send({error: true, message: 'forbidden access'})` */
  const Forbidden := Response(403, Error("forbidden access"))

  /** `res.send(body)` with Express's default status. */
  function Ok(body: Body): Response
  {
    Response(200, body)
  }

  /** Every `res.send` a handler attempts, in order. Once headers are sent,
      a later `res.send` throws inside the handler and never reaches the
      client, so the client sees the first send only; no send at all leaves
      the request hanging. */
  function Seen(sends: seq<Response>): (r: Option<Response>)
    ensures r.Some? <==> |sends| > 0
    ensures r.Some? ==> r.value == sends[0]
  {
    if |sends| == 0 then None else Some(sends[0])
  }
}

=== FILE: results.dfy ===
/** Failure-compatible wrappers shared by the whole model: `Option` for
    "maybe absent" (a JavaScript `undefined`) and `Result` for a guard that
    either lets a request through or answers it with an error response. */
module Results {

  datatype Option<+T> = None | Some(value: T)

  datatype Result<+T, +E> = Success(value: T) | Failure(error: E) {

    predicate IsFailure() {
      Failure?
    }

    function PropagateFailure<U>(): Result<U, E>
      requires Failure?
    {
      Failure(error)
    }

    function Extract(): T
      requires Success?
    {
      value
    }
  }
}

=== FILE: routes.dfy ===
/** The route handlers of `index.js`, each a pure function from the store
    (and, behind the gate, the decoded claim) to the sends it attempts and
    the store it leaves behind. */
module Routes {
  import opened Results
  import opened Documents
  import opened Http
  import opened Store
  import opened Auth

  /** What one request does: every `res.send` attempted, in order, and the
      resulting store. */
  datatype Reply = Reply(sends: seq<Response>, next: State) {
    /** The response the client actually receives: the first send. */
    function Visible(): Option<Response>
    {
      Seen(sends)
    }
  }

  /** `after` is `before` with `$set: {key: v}` applied to the document with
      id `id`: nothing is added, removed or reordered, every other document
      is untouched, and when ids are distinct the one with that id differs
      exactly in `key`. */
  predicate UpdatedById(before: Collection, after: Collection, id: Id, key: string, v: Value)
  {
    && |after| == |before|
    && (forall j :: 0 <= j < |before| ==> after[j].id == before[j].id)
    && (forall j :: 0 <= j < |before| && before[j].id != id ==> after[j] == before[j])
    && (DistinctIds(before) ==>
          forall j :: 0 <= j < |before| && before[j].id == id ==>
            after[j].fields == before[j].fields[key := v])
  }

  lemma SetFirstById(c: Collection, id: Id, key: string, v: Value)
    ensures UpdatedById(c, SetFirst(c, IdIs(id), key, v), id, key, v)
  {
    var i := FirstMatch(c, IdIs(id));
    var r := SetFirst(c, IdIs(id), key, v);
    if DistinctIds(c) {
      forall j | 0 <= j < |c| && c[j].id == id
        ensures r[j].fields == c[j].fields[key := v]
      {
        assert i == j;
      }
    }
  }

  // ---------------------------------------------------------------- users

  /** `GET /users` (admin only): the whole users collection. */
  function ListUsers(st: State): (r: Reply)
    ensures r.next == st
    ensures r.sends == [Ok(Docs(st.users))]
  {
    Reply([Ok(Docs(st.users))], st)
  }

  /** `POST /users`: insert-if-absent by email. A second sign-in of a known
      email changes nothing and is answered with a notice. */
  function AddUser(st: State, user: Fields): (r: Reply)
    ensures r.next == st.(users := r.next.users, nextId := r.next.nextId)
    ensures (exists d :: d in st.users && Get(d.fields, "email") == Get(user, "email")) ==>
      r == Reply([Ok(Notice("user already exists"))], st)
    ensures (forall d :: d in st.users ==> Get(d.fields, "email") != Get(user, "email")) ==>
      && Appended(st.users, r.next.users, user)
      && r.sends == [Ok(Write(Inserted(r.next.users[|st.users|].id)))]
    ensures Valid(st) ==> Valid(r.next)
  {
    var existing := FindOne(st.users, FieldIs("email", Get(user, "email")));
    if existing.Some? then
      Reply([Ok(Notice("user already exists"))], st)
    else
      var next := st.(users := Insert(st.users, st.nextId, user), nextId := st.nextId + 1);
      assert Valid(st) ==> Valid(next) by {
        if Valid(st) {
          InsertKeepsWellFormed(st.users, st.nextId, user);
          var u := next.users;
          forall i, j | 0 <= i < j < |u|
            ensures Get(u[i].fields, "email") != Get(u[j].fields, "email")
          {
            if j == |st.users| {
              assert u[i] in st.users;
            }
          }
        }
      }
      Reply([Ok(Write(Inserted(st.nextId)))], next)
  }

  /** `GET /users/admin/:email` and `GET /users/instructor/:email` as
      written: on an email mismatch the route sends `{role: false}` but does
      not return, then looks the path email up and sends again. The second
      send would disclose another user's role; it throws instead. */
  function CheckRoleAsWritten(st: State, claim: Claim, email: string, role: string): (r: Reply)
    ensures r.next == st
    ensures claim.email != email ==>
      r.sends == [Ok(RoleFlag(role, false)), Ok(RoleFlag(role, HasRole(st.users, email, role)))]
    ensures claim.email == email ==> r.sends == [Ok(RoleFlag(role, HasRole(st.users, email, role)))]
  {
    var early := if claim.email != email then [Ok(RoleFlag(role, false))] else [];
    Reply(early + [Ok(RoleFlag(role, HasRole(st.users, email, role)))], st)
  }

  /** The same routes with the evidently intended `return`: exactly one
      send, and a caller only ever learns its own role. */
  function CheckRole(st: State, claim: Claim, email: string, role: string): (r: Reply)
    ensures r.next == st
    ensures r.sends == [Ok(RoleFlag(role, claim.email == email && HasRole(st.users, email, role)))]
    ensures UniqueEmails(st.users) ==>
      (r.sends[0].body.holds <==>
        (claim.email == email &&
         exists d :: d in st.users && Get(d.fields, "email") == Str(email) && Get(d.fields, "role") == Str(role)))
  {
    HasRoleExact(st.users, email, role);
    if claim.email != email then Reply([Ok(RoleFlag(role, false))], st)
    else Reply([Ok(RoleFlag(role, HasRole(st.users, email, role)))], st)
  }

  /** This request's client receives the same response either way, and both
      versions leave the store alone; the as-written one attempts a second
      send, which throws, exactly on a mismatch. */
  lemma CheckRoleMissingReturn(st: State, claim: Claim, email: string, role: string)
    ensures CheckRoleAsWritten(st, claim, email, role).Visible() == CheckRole(st, claim, email, role).Visible()
    ensures CheckRoleAsWritten(st, claim, email, role).next == CheckRole(st, claim, email, role).next
    ensures |CheckRoleAsWritten(st, claim, email, role).sends| == 2 <==> claim.email != email
  {
  }

  /** `PATCH /users/admin/:id`: the user with that id becomes an admin; when
      an instructor with the body's email is listed, the first instructor
      document matching the whole body (if any) is deleted. */
  function MakeAdmin(st: State, id: Id, body: Fields): (r: Reply)
    ensures r.next == st.(users := r.next.users, instructors := r.next.instructors)
    ensures UpdatedById(st.users, r.next.users, id, "role", Str("admin"))
    ensures (forall d :: d in st.instructors ==> Get(d.fields, "email") != Get(body, "email")) ==>
      r.next.instructors == st.instructors && |r.sends| == 1 && r.sends[0].body.Write?
    ensures forall d :: d in r.next.instructors ==> d in st.instructors
    ensures |r.next.instructors| == |st.instructors| || |r.next.instructors| == |st.instructors| - 1
    ensures |r.next.instructors| < |st.instructors| ==>
      exists d :: d in st.instructors && Matches(d, Like(body)) &&
        multiset(r.next.instructors) + multiset{d} == multiset(st.instructors)
    ensures "email" in body && (exists d :: d in st.instructors && Matches(d, Like(body))) ==>
      |r.next.instructors| == |st.instructors| - 1
    ensures Valid(st) ==> Valid(r.next)
  {
    var users := SetFirst(st.users, IdIs(id), "role", Str("admin"));
    var report := UpdateReport(st.users, IdIs(id), "role", Str("admin"));
    SetFirstById(st.users, id, "role", Str("admin"));
    var existing := FindOne(st.instructors, FieldIs("email", Get(body, "email")));
    if existing.Some? then
      var instructors := DeleteFirst(st.instructors, Like(body));
      var next := st.(users := users, instructors := instructors);
      assert Valid(st) ==> Valid(next) by {
        if Valid(st) {
          SetFirstKeepsWellFormed(st.users, st.nextId, IdIs(id), "role", Str("admin"));
          DeleteFirstKeepsWellFormed(st.instructors, st.nextId, Like(body));
          SetFirstKeepsEmails(st.users, IdIs(id), "role", Str("admin"));
        }
      }
      Reply([Ok(Writes(DeleteReport(st.instructors, Like(body)), report))], next)
    else
      var next := st.(users := users);
      assert Valid(st) ==> Valid(next) by {
        if Valid(st) {
          SetFirstKeepsWellFormed(st.users, st.nextId, IdIs(id), "role", Str("admin"));
          SetFirstKeepsEmails(st.users, IdIs(id), "role", Str("admin"));
        }
      }
      Reply([Ok(Write(report))], next)
  }

  /** `PATCH /users/instructor/:id`: the user with that id becomes an
      instructor, and the body is appended to the instructor directory
      unconditionally, duplicates included. */
  function MakeInstructor(st: State, id: Id, body: Fields): (r: Reply)
    ensures r.next == st.(users := r.next.users, instructors := r.next.instructors, nextId := r.next.nextId)
    ensures UpdatedById(st.users, r.next.users, id, "role", Str("instructor"))
    ensures Appended(st.instructors, r.next.instructors, body)
    ensures |r.sends| == 1 && r.sends[0].body.Writes? &&
      r.sends[0].body.second == Inserted(r.next.instructors[|st.instructors|].id)
    ensures Valid(st) ==> Valid(r.next)
  {
    SetFirstById(st.users, id, "role", Str("instructor"));
    var report := UpdateReport(st.users, IdIs(id), "role", Str("instructor"));
    var next := st.(users := SetFirst(st.users, IdIs(id), "role", Str("instructor")),
                    instructors := Insert(st.instructors, st.nextId, body),
                    nextId := st.nextId + 1);
    assert Valid(st) ==> Valid(next) by {
      if Valid(st) {
        SetFirstKeepsWellFormed(st.users, st.nextId, IdIs(id), "role", Str("instructor"));
        SetFirstKeepsEmails(st.users, IdIs(id), "role", Str("instructor"));
        InsertKeepsWellFormed(st.instructors, st.nextId, body);
      }
    }
    Reply([Ok(Writes(report, Inserted(st.nextId)))], next)
  }

  /** Setting any field but `email` keeps every user's email. */
  lemma SetFirstKeepsEmails(users: Collection, q: Query, key: string, v: Value)
    requires key != "email"
    requires UniqueEmails(users)
    ensures UniqueEmails(SetFirst(users, q, key, v))
  {
    var u := SetFirst(users, q, key, v);
    assert forall j :: 0 <= j < |users| ==> Get(u[j].fields, "email") == Get(users[j].fields, "email");
  }

  // ------------------------------------------------- per-user listings

  /** `!email` in JavaScript: an absent or empty query parameter. */
  predicate Falsy(email: Option<string>)
  {
    email.None? || email.value == ""
  }

  /** `GET /studentClasses` and `GET /newClasses/instructor` as written:
      a falsy query email sends `[]` without returning, after which the
      ownership check and the lookup run and send again. */
  function OwnedListAsWritten(c: Collection, claim: Claim, email: Option<string>): (sends: seq<Response>)
    ensures Falsy(email) ==> |sends| == 2 && sends[0] == Ok(Docs([]))
    ensures !Falsy(email) ==> |sends| == 1
  {
    var early := if Falsy(email) then [Ok(Docs([]))] else [];
    if email != Some(claim.email) then early + [Forbidden]
    else early + [Ok(Docs(Find(c, FieldIs("userEmail", Str(claim.email)))))]
  }

  /** The same routes with the evidently intended `return` after `[]`. */
  function OwnedList(c: Collection, claim: Claim, email: Option<string>): (sends: seq<Response>)
    ensures |sends| == 1
    ensures Falsy(email) ==> sends[0] == Ok(Docs([]))
    ensures !Falsy(email) && email.value != claim.email ==> sends[0] == Forbidden
    ensures !Falsy(email) && email.value == claim.email ==>
      sends[0].status == 200 && sends[0].body.Docs? &&
      (forall d :: d in sends[0].body.docs <==> d in c && Get(d.fields, "userEmail") == Str(claim.email)) &&
      (forall d :: multiset(sends[0].body.docs)[d] ==
         if Get(d.fields, "userEmail") == Str(claim.email) then multiset(c)[d] else 0)
  {
    FindContents(c, FieldIs("userEmail", Str(claim.email)));
    if Falsy(email) then [Ok(Docs([]))]
    else if email.value != claim.email then [Forbidden]
    else [Ok(Docs(Find(c, FieldIs("userEmail", Str(claim.email)))))]
  }

  /** The client sees the same answer either way; only the as-written
      version attempts a second send, exactly when the email is falsy. */
  lemma OwnedListMissingReturn(c: Collection, claim: Claim, email: Option<string>)
    ensures Seen(OwnedListAsWritten(c, claim, email)) == Seen(OwnedList(c, claim, email))
    ensures |OwnedListAsWritten(c, claim, email)| == 2 <==> Falsy(email)
  {
  }

  /** `GET /studentClasses?email=`: the caller's own selected classes. */
  function ListSelected(st: State, claim: Claim, email: Option<string>): (r: Reply)
    ensures r.next == st
    ensures r.sends == OwnedList(st.studentClasses, claim, email)
  {
    Reply(OwnedList(st.studentClasses, claim, email), st)
  }

  /** `GET /newClasses/instructor?email=`: the caller's own submissions. */
  function ListOwnSubmissions(st: State, claim: Claim, email: Option<string>): (r: Reply)
    ensures r.next == st
    ensures r.sends == OwnedList(st.newClasses, claim, email)
  {
    Reply(OwnedList(st.newClasses, claim, email), st)
  }

  // ------------------------------------------------------------ cart

  /** `POST /studentClasses`: stores the selection as sent. */
  function SelectClass(st: State, selected: Fields): (r: Reply)
    ensures r.next == st.(studentClasses := r.next.studentClasses, nextId := r.next.nextId)
    ensures Appended(st.studentClasses, r.next.studentClasses, selected)
    ensures r.sends == [Ok(Write(Inserted(r.next.studentClasses[|st.studentClasses|].id)))]
    ensures Valid(st) ==> Valid(r.next)
  {
    InsertKeepsWellFormed(st.studentClasses, st.nextId, selected);
    Reply([Ok(Write(Inserted(st.nextId)))],
          st.(studentClasses := Insert(st.studentClasses, st.nextId, selected), nextId := st.nextId + 1))
  }

  /** `DELETE /studentClasses/:id`: removes at most the one selection with
      that id; in a valid store none with that id remains and every other
      selection stays. */
  function RemoveSelected(st: State, id: Id): (r: Reply)
    ensures r.next == st.(studentClasses := r.next.studentClasses)
    ensures |st.studentClasses| - 1 <= |r.next.studentClasses| <= |st.studentClasses|
    ensures forall d :: d in r.next.studentClasses ==> d in st.studentClasses
    ensures Valid(st) ==>
      && (forall d :: d in r.next.studentClasses ==> d.id != id)
      && (forall d :: d in st.studentClasses && d.id != id ==> d in r.next.studentClasses)
    ensures |r.sends| == 1 && r.sends[0].body.Write? && r.sends[0].body.result.Deleted?
    ensures r.sends[0].body.result.deletedCount == |st.studentClasses| - |r.next.studentClasses|
    ensures Valid(st) ==> Valid(r.next)
  {
    var c := st.studentClasses;
    DeleteById(c, id);
    DeleteFirstKeepsWellFormed(c, st.nextId, IdIs(id));
    Reply([Ok(Write(DeleteReport(c, IdIs(id))))], st.(studentClasses := DeleteFirst(c, IdIs(id))))
  }

  // ----------------------------------------------------- submissions

  /** `GET /newClasses` (admin only): every submission. */
  function ListSubmissions(st: State): (r: Reply)
    ensures r.next == st
    ensures r.sends == [Ok(Docs(st.newClasses))]
  {
    Reply([Ok(Docs(st.newClasses))], st)
  }

  /** `POST /newClasses/instructor` (instructor only): stores the body as a
      new submission; its `userEmail` is not checked against the caller. */
  function Submit(st: State, newClass: Fields): (r: Reply)
    ensures r.next == st.(newClasses := r.next.newClasses, nextId := r.next.nextId)
    ensures Appended(st.newClasses, r.next.newClasses, newClass)
    ensures r.sends == [Ok(Write(Inserted(r.next.newClasses[|st.newClasses|].id)))]
    ensures Valid(st) ==> Valid(r.next)
  {
    InsertKeepsWellFormed(st.newClasses, st.nextId, newClass);
    Reply([Ok(Write(Inserted(st.nextId)))],
          st.(newClasses := Insert(st.newClasses, st.nextId, newClass), nextId := st.nextId + 1))
  }

  /** `$set` on the submission with id `id`, leaving every other collection
      alone; the shared core of approve, deny and feedback. */
  function SetOnSubmission(st: State, id: Id, key: string, v: Value): (r: State)
    ensures r == st.(newClasses := r.newClasses)
    ensures UpdatedById(st.newClasses, r.newClasses, id, key, v)
    ensures Valid(st) ==> Valid(r)
  {
    SetFirstById(st.newClasses, id, key, v);
    SetFirstKeepsWellFormed(st.newClasses, st.nextId, IdIs(id), key, v);
    st.(newClasses := SetFirst(st.newClasses, IdIs(id), key, v))
  }

  /** `PATCH /newClasses/approved/:id`: marks the submission approved and
      publishes the caller-supplied body as a new class. The body is not
      read from the submission, and it is published even when no
      submission has that id. */
  function Approve(st: State, id: Id, approvedClass: Fields): (r: Reply)
    ensures r.next == st.(newClasses := r.next.newClasses, classes := r.next.classes, nextId := r.next.nextId)
    ensures UpdatedById(st.newClasses, r.next.newClasses, id, "status", Str("approved"))
    ensures Appended(st.classes, r.next.classes, approvedClass)
    ensures |r.sends| == 1 && r.sends[0].body.Writes? &&
      r.sends[0].body.second == Inserted(r.next.classes[|st.classes|].id)
    ensures Valid(st) ==> Valid(r.next)
  {
    var report := UpdateReport(st.newClasses, IdIs(id), "status", Str("approved"));
    var marked := SetOnSubmission(st, id, "status", Str("approved"));
    InsertKeepsWellFormed(st.classes, st.nextId, approvedClass);
    Reply([Ok(Writes(report, Inserted(st.nextId)))],
          marked.(classes := Insert(st.classes, st.nextId, approvedClass), nextId := st.nextId + 1))
  }

  /** `PATCH /newClasses/denied/:id`: marks the submission denied, whatever
      its status was before. */
  function Deny(st: State, id: Id): (r: Reply)
    ensures r.next == st.(newClasses := r.next.newClasses)
    ensures UpdatedById(st.newClasses, r.next.newClasses, id, "status", Str("denied"))
    ensures |r.sends| == 1 && r.sends[0].body.Write? && r.sends[0].body.result.Updated?
    ensures Valid(st) ==> Valid(r.next)
  {
    Reply([Ok(Write(UpdateReport(st.newClasses, IdIs(id), "status", Str("denied"))))],
          SetOnSubmission(st, id, "status", Str("denied")))
  }

  /** `PATCH /newClasses/feedback/:id`: sets only the `feedback` field, to
      the body's `feedback` (null when the body has none). */
  function Feedback(st: State, id: Id, body: Fields): (r: Reply)
    ensures r.next == st.(newClasses := r.next.newClasses)
    ensures UpdatedById(st.newClasses, r.next.newClasses, id, "feedback", Get(body, "feedback"))
    ensures |r.sends| == 1 && r.sends[0].body.Write? && r.sends[0].body.result.Updated?
    ensures Valid(st) ==> Valid(r.next)
  {
    var v := Get(body, "feedback");
    Reply([Ok(Write(UpdateReport(st.newClasses, IdIs(id), "feedback", v)))],
          SetOnSubmission(st, id, "feedback", v))
  }
}

=== FILE: store.dfy ===
/** The five collections of the `languagevioDB` database, as one immutable
    state that each route maps to a response and a successor state. */
module Store {
  import opened Documents

  datatype State = State(
    users: Collection,
    classes: Collection,
    instructors: Collection,
    studentClasses: Collection,
    newClasses: Collection,
    /** the id the next `insertOne` receives */
    nextId: Id)

  /** At most one user per value of the `email` field (a missing email
      counting as one value), which `POST /users` maintains. */
  predicate UniqueEmails(users: Collection)
  {
    forall i, j :: 0 <= i < j < |users| ==> Get(users[i].fields, "email") != Get(users[j].fields, "email")
  }

  /** The invariant every route preserves. */
  predicate Valid(st: State)
  {
    && WellFormed(st.users, st.nextId)
    && WellFormed(st.classes, st.nextId)
    && WellFormed(st.instructors, st.nextId)
    && WellFormed(st.studentClasses, st.nextId)
    && WellFormed(st.newClasses, st.nextId)
    && UniqueEmails(st.users)
  }

  /** The user document `findOne({email})` returns, by the caller's email. */
  function UserByEmail(users: Collection, email: string): (r: Results.Option<Doc>)
    ensures r.Some? ==> r.value in users && Get(r.value.fields, "email") == Str(email)
    ensures r.None? <==> forall d :: d in users ==> Get(d.fields, "email") != Str(email)
  {
    FindOne(users, FieldIs("email", Str(email)))
  }

  /** `user?.role === role`: a stored user with this email exists and its
      `role` field is exactly the string `role`. */
  predicate HasRole(users: Collection, email: string, role: string)
  {
    var u := UserByEmail(users, email);
    u.Some? && Get(u.value.fields, "role") == Str(role)
  }

  lemma SameEmailSameUser(users: Collection, i: nat, k: nat)
    requires UniqueEmails(users)
    requires i < |users| && k < |users|
    requires Get(users[i].fields, "email") == Get(users[k].fields, "email")
    ensures i == k
  {
  }

  /** With unique emails, the first user with an email is the only one, so
      the role check asks about that one user. */
  lemma HasRoleExact(users: Collection, email: string, role: string)
    ensures UniqueEmails(users) ==>
      (HasRole(users, email, role) <==>
        exists d :: d in users && Get(d.fields, "email") == Str(email) && Get(d.fields, "role") == Str(role))
  {
    var u := UserByEmail(users, email);
    if d :| UniqueEmails(users) && d in users && Get(d.fields, "email") == Str(email) && Get(d.fields, "role") == Str(role) {
      var i :| 0 <= i < |users| && users[i] == d;
      var k :| 0 <= k < |users| && users[k] == u.value;
      SameEmailSameUser(users, i, k);
    }
  }
}

=== FILE: text.dfy ===
/** The string handling `verifyJWT` relies on: `String.prototype.split` with a
    one-character separator, and the bearer-token extraction built on it. */
module Text {
  import opened Results

  /** Number of occurrences of `c` in `s`. */
  function Count(s: string, c: char): nat
  {
    if |s| == 0 then 0 else (if s[0] == c then 1 else 0) + Count(s[1..], c)
  }

  /** `c` occurs in `s` exactly when it is counted at least once. */
  lemma {:induction false} CountPositive(s: string, c: char)
    ensures Count(s, c) > 0 <==> c in s
  {
    if |s| > 0 {
      CountPositive(s[1..], c);
      assert s == [s[0]] + s[1..];
    }
  }

  /** `parts.join(sep)`: the parts with one separator between neighbours. */
  function Join(parts: seq<string>, sep: char): string
  {
    if |parts| == 0 then ""
    else if |parts| == 1 then parts[0]
    else parts[0] + [sep] + Join(parts[1..], sep)
  }

  /** `s.split(sep)`: the pieces between consecutive separators, empty
      pieces included. */
  function Split(s: string, sep: char): (parts: seq<string>)
    ensures |parts| >= 1
  {
    if |s| == 0 then [""]
    else
      var rest := Split(s[1..], sep);
      if s[0] == sep then [""] + rest
      else [[s[0]] + rest[0]] + rest[1..]
  }

  /** `Split` yields one piece more than there are separators, and no piece
      holds a separator. */
  lemma {:induction false} SplitPieces(s: string, sep: char)
    ensures |Split(s, sep)| == Count(s, sep) + 1
    ensures forall i :: 0 <= i < |Split(s, sep)| ==> sep !in Split(s, sep)[i]
  {
    if |s| > 0 {
      SplitPieces(s[1..], sep);
      SplitStep(s, sep);
    }
  }

  /** Joining the pieces of `Split` with the separator gives `s` back. */
  lemma {:induction false} JoinSplit(s: string, sep: char)
    ensures Join(Split(s, sep), sep) == s
  {
    if |s| > 0 {
      var rest := Split(s[1..], sep);
      JoinSplit(s[1..], sep);
      SplitStep(s, sep);
      assert s == [s[0]] + Join(rest, sep);
      if s[0] != sep && |rest| > 1 {
        assert Join(rest, sep) == rest[0] + [sep] + Join(rest[1..], sep);
        assert Split(s, sep)[1..] == rest[1..];
      }
    }
  }

  /** One step of `Split`: a separator starts a new piece, any other
      character joins the first piece. */
  lemma SplitStep(s: string, sep: char)
    requires |s| > 0
    ensures Split(s, sep) ==
      if s[0] == sep then [""] + Split(s[1..], sep)
      else [[s[0]] + Split(s[1..], sep)[0]] + Split(s[1..], sep)[1..]
  {
  }

  /** Splitting a piece without separators in front of `t` glues the piece
      onto the first piece of `t`. */
  lemma {:induction false} SplitPrefix(w: string, t: string, sep: char)
    requires sep !in w
    ensures Split(w + t, sep) == [w + Split(t, sep)[0]] + Split(t, sep)[1..]
  {
    var st := Split(t, sep);
    if |w| == 0 {
      assert w + t == t && w + st[0] == st[0];
      assert st == [st[0]] + st[1..];
    } else {
      var s := w + t;
      SplitPrefix(w[1..], t, sep);
      assert s[1..] == w[1..] + t;
      SplitStep(s, sep);
      assert [w[0]] + (w[1..] + st[0]) == w + st[0];
    }
  }

  /** `Split` inverts `Join` on pieces that hold no separator. */
  lemma {:induction false} SplitJoin(parts: seq<string>, sep: char)
    requires |parts| >= 1
    requires forall i :: 0 <= i < |parts| ==> sep !in parts[i]
    ensures Split(Join(parts, sep), sep) == parts
  {
    if |parts| == 1 {
      SplitPrefix(parts[0], "", sep);
      assert parts[0] + "" == parts[0];
    } else {
      var rest := Join(parts[1..], sep);
      assert Join(parts, sep) == parts[0] + ([sep] + rest);
      SplitJoin(parts[1..], sep);
      SplitPrefix(parts[0], [sep] + rest, sep);
      var tail := Split([sep] + rest, sep);
      assert ([sep] + rest)[0] == sep && ([sep] + rest)[1..] == rest;
      assert tail == [""] + parts[1..];
      assert parts[0] + tail[0] == parts[0];
      assert parts == [parts[0]] + parts[1..];
    }
  }

  /** `authorization.split(' ')[1]`: the second space-separated word of the
      header, or `undefined` when the header has no space. */
  function TokenOf(authorization: string): (token: Option<string>)
    ensures ' ' !in authorization <==> token.None?
    ensures token.Some? ==> ' ' !in token.value
  {
    SplitPieces(authorization, ' ');
    CountPositive(authorization, ' ');
    var words := Split(authorization, ' ');
    if |words| >= 2 then Some(words[1]) else None
  }

  /** Whatever the first word is (the scheme is never checked), the token is
      the word after the first space. */
  lemma BearerToken(scheme: string, token: string)
    requires ' ' !in scheme && ' ' !in token
    ensures TokenOf(scheme + " " + token) == Some(token)
  {
    SplitJoin([scheme, token], ' ');
    assert Join([scheme, token], ' ') == scheme + " " + token;
  }

  /** `split(' ')[1]` for any number of words: a header made of two or more
      space-free words yields its second word, whatever follows it. */
  lemma SecondWord(words: seq<string>)
    requires |words| >= 2
    requires forall i :: 0 <= i < |words| ==> ' ' !in words[i]
    ensures TokenOf(Join(words, ' ')) == Some(words[1])
  {
    SplitJoin(words, ' ');
  }
}
